=== FILE: README.md ===
# Authentication controller of Central de Erros, modelled in Dafny

The model covers the request-decision logic of the service's authentication controller. Five
endpoints are modelled: user registration (`Cadastrar`), login, the forgot-password request,
the GET reset-password lookup and the reset-password confirmation. Token issuance
(`GerarJwt`) is modelled too.

The controller is modelled as pure functions. Each handler takes the credential store, the
request, the validity of the input and the store's verdicts. It returns the HTTP response and
the store after the request.

Files:

- `wrappers.dfy`: `Option`, used for nullable lookups and nullable query parameters.
- `identity.dfy` (module `Identity`): the credential store the controller calls.
  - Users are a table scanned in order.
  - Claims and roles are tables keyed by user id.
  - The store's decisions are supplied as verdicts: password policy, user-name rules, password
    check, lockout and reset-code validation.
  - The behaviour the controller depends on is kept. Sign-in looks the user up by user name,
    and an unknown name always fails. Create applies its validation verdict first and then rejects a
    user name held by another user (a different id) with `DuplicateUserName`. A result prints as `Succeeded` or
    `Failed : code1,code2`.
- `token.dfy` (module `Token`): the claim list, the token descriptor, the login response, and
  the ASCII encoding of the signing secret.
- `auth_controller.dfy` (module `Auth`): the five handlers and their response mapping.
- `auth_properties.dfy` (module `AuthProperties`): properties relating several requests or
  verdicts.
- `findings.dfy` (module `Findings`): two departures from the evidently intended behaviour.
  Each has the as-written behaviour on a concrete input and a corrected definition.

Some inputs that the source gets from its environment are parameters in the model:
- input validation (`ModelState.IsValid`) is a boolean;
- the clock (`DateTime.UtcNow`) is `now`, in seconds;
- the fresh user id (`Guid.NewGuid`) is `newId`;
- the generated reset code is `code`.

Behaviour of the code worth knowing, all modelled as written:

- The login response reports `ExpiresIn` as 7200 seconds whatever lifetime is configured. The
  token itself expires after the configured number of hours.
- Reset confirmation answers 200 even when the store rejects the code or the new password. The
  body is then `Failed : <codes> Senha alterada com sucesso!`, and the password is unchanged.
- Login signs in by user name (registration sets it equal to the e-mail), not by e-mail. The
  token is then built for the user found by e-mail.
- Roles are an ordered list, in the store's order.
- The GET reset endpoint answers "Senha alterada com sucesso!" but changes nothing. It only
  checks that a code is present and never validates it.
- A configured token lifetime of zero or fewer hours makes every successful login end in an
  unhandled exception (500): the JWT handler refuses a token whose expiry is not after its
  not-before time.

## Model

| member | source | states |
|---|---|---|
| Identity.Find | CentralErros/Controllers/AuthController.cs:102 | A lookup returns a user of the store holding the key, and returns nothing exactly when no user holds it |
| Identity.FindUnique | CentralErros/Controllers/AuthController.cs:135 | On a unique column (id, user name), looking up a user's own key finds that user |
| Identity.FindAppended | CentralErros/Controllers/AuthController.cs:55 | A user inserted under a key nobody held is found by that key afterwards |
| Identity.Create | CentralErros/Controllers/AuthController.cs:55 | Creation succeeds exactly when the store's validation verdict (password policy and user-name character rule) passes and both the user name and the id are free; success appends the user with the hashed password, failure changes nothing. With a passing verdict, `DuplicateUserName` is reported exactly when the name belongs to a row with a different id |
| Identity.SetPassword | CentralErros/Controllers/AuthController.cs:164 | Only the rows with the user's id get the new password; every other row and the row count stay the same |
| Identity.ResetStoredPassword | CentralErros/Controllers/AuthController.cs:164 | The store's verdict is returned unchanged. A refusal leaves the store as it was. On success the row count and the claims and roles tables stay the same, the rows with the user's id carry the new password hash, and every other row is unchanged |
| Identity.ResetUserFound | CentralErros/Controllers/AuthController.cs:164 | After a successful reset, looking the user up by id finds that same user with the new password |
| Identity.JoinCodes | CentralErros/Controllers/AuthController.cs:164 | The joined codes of no errors are empty, and otherwise begin with the first error's code |
| Identity.JoinCodesRoundTrip | CentralErros/Controllers/AuthController.cs:164 | When no code contains a comma, splitting the joined text at its commas gives back exactly the codes, in order, as a comma join promises |
| Identity.ResultText | CentralErros/Controllers/AuthController.cs:164 | The result's text is "Succeeded" exactly when the result succeeded; a failure reads "Failed : " followed by the comma-joined error codes |
| Identity.PasswordSignIn | CentralErros/Controllers/AuthController.cs:72 | Signing in with a user name nobody has always fails, so success implies the user exists |
| Identity.CreateKeepsValid | CentralErros/Controllers/AuthController.cs:55 | Creating a user keeps ids and user names unique and claim and role rows attached to existing users |
| Identity.ResetPasswordKeepsValid | CentralErros/Controllers/AuthController.cs:164 | A password reset keeps the store's integrity constraints |
| Token.RoleClaims | CentralErros/Controllers/AuthController.cs:181-184 | One `role` claim per role, same count, position i carries role i |
| Token.BuildClaims | CentralErros/Controllers/AuthController.cs:173-184 | The token's claims are the stored claims as an unchanged prefix, then `sub`, `email`, `unique_name`, then the roles in order; the length is stored + 3 + roles |
| Token.AppendClaims | CentralErros/Controllers/AuthController.cs:173-184 | Appending claims one at a time, as the controller does, yields exactly the pure claim list |
| Token.ValuesOfTypeAppend | CentralErros/Controllers/AuthController.cs:177-184 | Reading the claims of one type from a concatenation reads each part in turn |
| Token.RoleClaimValues | CentralErros/Controllers/AuthController.cs:181-184 | Reading the `role` claims back out gives the roles, in order |
| Token.IdentityClaimsHaveNoRole | CentralErros/Controllers/AuthController.cs:177-179 | The subject, e-mail and unique-name claims contribute no `role` value |
| Token.TokenRoles | CentralErros/Controllers/AuthController.cs:173-184 | The token's role claims are the stored role claims followed by exactly the user's roles; the identity claims add none |
| Token.ToDtos | CentralErros/Controllers/AuthController.cs:212 | The response's claim objects carry each claim's type and value, position by position |
| Token.DtosRoundTrip | CentralErros/Controllers/AuthController.cs:186-187 | The claims in the response are the token subject's claims, same list and same order |
| Token.AsciiBytes | CentralErros/Controllers/AuthController.cs:191 | The key has one byte per character of the secret: the character's code when it is ASCII, '?' otherwise |
| Token.AsciiSecretRoundTrip | CentralErros/Controllers/AuthController.cs:191 | An ASCII secret is encoded into the signing key character for character |
| Token.GerarJwt | CentralErros/Controllers/AuthController.cs:171-216 | The token and response belong to the user found by the e-mail; the subject is the claim list and equals the response's claims; the issuer, audience and HMAC-SHA256 key come from the settings; expiry is now plus the configured hours; the reported lifetime is 7200 s. An exception (no token) happens exactly when no user has that e-mail or the configured lifetime is zero or fewer hours |
| Token.ReportedExpiryIgnoresConfiguration | CentralErros/Controllers/AuthController.cs:198-207 | The reported lifetime is fixed and matches the token's real lifetime exactly when two hours are configured |
| Auth.NewUser | CentralErros/Controllers/AuthController.cs:47-52 | The user to create carries the given id, has user name and e-mail both equal to the request's e-mail, a confirmed e-mail, and no password yet |
| Auth.Cadastrar | CentralErros/Controllers/AuthController.cs:44-62 | Invalid input gives 400 and no store call. 200 with the fixed message happens exactly when the store accepts, and the new user has user name = e-mail = the request's e-mail, a confirmed e-mail and the hashed password. A store refusal gives 400 with the store's errors and leaves the store unchanged; a name held by another id gives 400 `DuplicateUserName`. 500 happens exactly when the verdict passes, the new id is taken and the name is free or held under that same id |
| Auth.Login | CentralErros/Controllers/AuthController.cs:69-83 | The store never changes. Invalid input gives 400. Sign-in success gives 200 with the token of the user found by the login e-mail when the configured lifetime is positive, and 500 when that user is missing or the lifetime is zero or fewer hours. Locked out gives 400 echoing the request. Every other outcome gives 404 "Email ou Senha inválidos!" |
| Auth.ForgotPassword | CentralErros/Controllers/AuthController.cs:99-114 | The store never changes. An unknown e-mail gives 404 naming the e-mail. A known e-mail gives 200 with the generated code, the user's e-mail and the user's id |
| Auth.ResetPassword | CentralErros/Controllers/AuthController.cs:129-146 | The store never changes. A missing id or code gives 400 before any lookup. An unknown id gives 404 naming the id. Otherwise the answer is 200 "Senha alterada com sucesso!" |
| Auth.ResetPasswordConfirm | CentralErros/Controllers/AuthController.cs:154-164 | Invalid input gives 400. An unknown e-mail gives 404 naming the e-mail, with the store unchanged. For a found user the store's reset is applied once, and the answer is 200 with the result text followed by the success message |
| AuthProperties.LoginHidesUnknownEmail | CentralErros/Controllers/AuthController.cs:72-83 | A login for an unknown e-mail and a wrong password for a known one get the identical 404 response |
| AuthProperties.LoginInvalidMakesNoAttempt | CentralErros/Controllers/AuthController.cs:69-72 | With invalid input the sign-in verdict plays no part: no sign-in is attempted |
| AuthProperties.LoginTokenCarriesIdentity | CentralErros/Controllers/AuthController.cs:76 | A successful login's token carries an `email` claim with the login e-mail, and the response's claims equal the token's subject |
| AuthProperties.LoginFailsWithoutLifetime | CentralErros/Controllers/AuthController.cs:76 | With a lifetime of zero or fewer hours, a successful sign-in ends in a 500 for every user |
| AuthProperties.ResetPasswordIgnoresCode | CentralErros/Controllers/AuthController.cs:129-146 | The GET reset endpoint answers the same for every code it receives |
| AuthProperties.ConfirmAnswersOkWhateverTheStoreSays | CentralErros/Controllers/AuthController.cs:157-164 | For a known e-mail, confirmation answers 200 whether or not the store accepted. Only on acceptance does the user's stored password become the requested one |
| AuthProperties.CadastrarKeepsValid | CentralErros/Controllers/AuthController.cs:47-62 | Registration keeps ids and user names unique and claim and role rows attached to existing users |
| AuthProperties.ResetPasswordConfirmKeepsValid | CentralErros/Controllers/AuthController.cs:157-164 | Reset confirmation keeps the store's integrity constraints |
| AuthProperties.RegisterThenLogin | CentralErros/Controllers/AuthController.cs:47-76 | With a positive token lifetime, registering a fresh e-mail and then signing in yields 200 and a token for the new id whose claims are exactly `sub`, `email`, `unique_name` |
| Findings.ConfirmReportsSuccessOnRejectedCode | CentralErros/Controllers/AuthController.cs:164 | A rejected reset code gets 200 "Failed : InvalidToken Senha alterada com sucesso!" with the password unchanged |
| Findings.ResetPasswordConfirmIntended | CentralErros/Controllers/AuthController.cs:154-164 | The corrected confirmation keeps the 400 and 404 paths and changes nothing unless it answers 200 |
| Findings.IntendedConfirmReflectsStore | CentralErros/Controllers/AuthController.cs:164 | With the correction, 200 happens exactly when the store changed the password. A refusal gives 400 with the store's errors |
| Findings.ReportedExpiryOutlivesOneHourToken | CentralErros/Controllers/AuthController.cs:198-207 | With a one-hour lifetime configured, the token expires after 3600 s but 7200 s is reported |
| Findings.GerarJwtIntended | CentralErros/Controllers/AuthController.cs:198-207 | The corrected issuance reports exactly the token's real lifetime, the configured hours in seconds |
| Findings.IntendedTokenOnlyChangesExpiresIn | CentralErros/Controllers/AuthController.cs:204-213 | The correction issues the same token and user block; only the reported lifetime differs |

## Left out

- JWT serialisation and HMAC-SHA256 signing (RFC 7515; section 3.2 of RFC 7518) are done by the JWT handler. The encoded token is a free constructor over its descriptor. The handler's outbound claim-type mapping and its minimum key-size check are not modelled.
- Identity.Create: the store's user-name rules are not computed. Under the default allowed characters `a-zA-Z0-9-._@+` the store refuses a user name such as `joão@x.com` with `InvalidUserName`. The model folds that refusal into the supplied validation verdict, because the allowed set is store configuration, and that configuration is not part of this model.
- ASP.NET Identity internals are a foreign library and arrive as verdicts: password hashing (the hash is an injective abstract `Hashed`), password verification, lockout policy, e-mail confirmation policy, and reset-token generation and validation.
- The access-failure counter that `PasswordSignInAsync` updates when lockout is on is store-internal. `Auth.Login` leaves the store unchanged.
- Case-insensitive lookups are not modelled: the store compares normalised e-mails and user names, the model compares them exactly.
- When several users share an e-mail, the store's e-mail lookup throws. The model returns the first match.
- `Logout` is a framework sign-out with no logic of its own.
- `ForgotMainPassword` builds a URL and sends e-mail (I/O). Its only call is commented out.
- async/await, the contents of the model-state validation report, and the response serialisation are not modelled.
- The shape of `ErrorResponse.FromIdentity` is not part of this model. A registration refusal carries the store's error list as is.
- The DTO classes and `AppSettings` are not part of this model. Only the fields the controller reads are kept. `ExpiracaoHoras` is taken to be an integer number of hours, and times are whole seconds.
- `ExpiresIn` is a double (`TotalSeconds`) in the source. The model uses the integer 7200.
- Overflow of `DateTime.AddHours` is not modelled.
- Null checks in the claim constructor (a user without e-mail or user name) are not modelled. Stored e-mails and user names are strings.
- A null `Secret` is not modelled either.
- Token.GerarJwt: its "exactly when" covers the missing user and the non-positive lifetime only. An empty secret (refused by the key constructor) and a key shorter than HS256 allows also throw, and the source answers 500; the model issues a token in both cases.
- Token.AsciiBytes: characters outside the Basic Multilingual Plane are one character here but two UTF-16 units (two '?') in the source.
- A colliding fresh id on registration is treated as a database fault and answered with 500, also when the row holding the e-mail has that very id (the name check ignores the user's own row).
- A token request for an e-mail with no user is likewise answered with 500, because `GetClaimsAsync` throws on the null user. The two clock reads (expiry and not-before) are one `now` in the model; the refusal of a non-positive lifetime does not depend on their gap.
- `EnvironmentController` is a CRUD wrapper over a database context and a service that is not shown.
- `AutoMapperProfile` is mapping configuration with no behaviour.

## Findings

| source | as written | input that shows it | evidently intended | confidence | as-written member | corrected member |
|---|---|---|---|---|---|---|
| CentralErros/Controllers/AuthController.cs:164 | Reset confirmation answers 200 and appends "Senha alterada com sucesso!" to the result text whatever the store says | A known e-mail with a code the store rejects: 200 "Failed : InvalidToken Senha alterada com sucesso!", password unchanged | 400 with the store's errors on refusal, as registration does; 200 only when the password changed | high (not executed) | Findings.ConfirmReportsSuccessOnRejectedCode | Findings.IntendedConfirmReflectsStore |
| CentralErros/Controllers/AuthController.cs:198-207 | `ExpiresIn` is fixed at two hours while the token's expiry uses `ExpiracaoHoras` | `ExpiracaoHoras = 1` and a 34-character ASCII secret: the token expires after 3600 s, the client is told 7200 s | `ExpiresIn` equal to `ExpiracaoHoras` hours in seconds | medium (not executed) | Findings.ReportedExpiryOutlivesOneHourToken | Findings.GerarJwtIntended |

=== FILE: auth_controller.dfy ===
/**
 * The authentication controller: registration, login, and the password-reset
 * endpoints. Each handler is a total function from the store, the request and
 * the store's verdicts to the HTTP response and the store afterwards.
 * Input validation (the model-state check) arrives as a boolean.
 */
module Auth {
  import opened Wrappers
  import opened Identity
  import opened Token

  datatype RegisterUserDTO = RegisterUserDTO(email: string, password: string)
  datatype LoginUserDTO = LoginUserDTO(email: string, password: string)
  datatype ForgotPasswordDTO = ForgotPasswordDTO(email: string)
  datatype ResetPasswordDTO = ResetPasswordDTO(code: string, email: string, userId: string)
  datatype ResetPasswordConfirmDTO = ResetPasswordConfirmDTO(email: string, code: string, password: string)

  /** Response payloads. `ModelStateErrors` is the validation report, whose
      contents are not modelled; `ServerError` is an unhandled exception. */
  datatype Body =
    | ModelStateErrors
    | Text(text: string)
    | IdentityErrors(errors: seq<IdentityError>)
    | LoginEcho(login: LoginUserDTO)
    | TokenIssued(response: LoginResponseDTO)
    | ResetTicket(ticket: ResetPasswordDTO)
    | ServerError

  datatype Response = Response(status: int, body: Body)

  /** A handler's effect: the response, and the store after the request. */
  datatype Outcome = Outcome(response: Response, store: Store)

  const Ok := 200
  const BadRequest := 400
  const NotFound := 404
  const InternalServerError := 500

  const RegisteredMessage := "Usuário Cadastrado com sucesso!"
  const InvalidLoginMessage := "Email ou Senha inválidos!"
  const ResetRefusedMessage := "Não foi possível resetar a senha"
  const PasswordChangedMessage := "Senha alterada com sucesso!"

  function UserNotFoundMessage(email: string): string
  {
    "Usuário '" + email + "' não encontrado."
  }

  function UserIdNotFoundMessage(userId: string): string
  {
    "Usuário ID '" + userId + "' não encontrado."
  }

  function ConfirmNotFoundMessage(email: string): string
  {
    "Usuário " + email + " não encontrado."
  }

  /** `sub` occurs in `s` starting at position `i`. */
  predicate OccursAt(s: string, sub: string, i: nat)
  {
    i + |sub| <= |s| && s[i..i + |sub|] == sub
  }

  /** `sub` occurs in `s` as a contiguous piece. */
  predicate Contains(s: string, sub: string)
  {
    exists i: nat | i <= |s| :: OccursAt(s, sub, i)
  }

  lemma ContainsMiddle(a: string, b: string, c: string)
    ensures Contains(a + b + c, b)
  {
    assert OccursAt(a + b + c, b, |a|);
  }

  /** The user the registration endpoint creates, before the store hashes the password. */
  function NewUser(id: string, email: string): (u: IdentityUser)
    ensures u.id == id
    ensures KeyOf(u, ByUserName) == KeyOf(u, ByEmail) == email
    ensures u.emailConfirmed
    ensures u.passwordHash == NoPassword
  {
    IdentityUser(id, email, email, true, NoPassword)
  }

  /**
   * POST registerUser. `newId` is the identifier the new user object is given;
   * `verdict` is the store's validation verdict on the password and on the
   * user name (which is the e-mail).
   */
  function Cadastrar(s: Store, request: RegisterUserDTO, valid: bool, newId: string, verdict: IdentityResult): (r: Outcome)
    ensures !valid ==> r == Outcome(Response(BadRequest, ModelStateErrors), s)
    ensures r.response.status == Ok <==>
      valid && verdict.Succeeded? && FindByName(s, request.email).None? && FindById(s, newId).None?
    ensures r.response.status == Ok ==>
      && r.response.body == Text(RegisteredMessage)
      && r.store == s.(users := s.users + [IdentityUser(newId, request.email, request.email, true, Hashed(request.password))])
    ensures r.response.status != Ok ==> r.store == s
    ensures valid && verdict.Failed? ==> r.response == Response(BadRequest, IdentityErrors(verdict.errors))
    ensures valid && verdict.Succeeded? && FindByName(s, request.email).Some? && FindByName(s, request.email).value.id != newId ==>
      r.response == Response(BadRequest, IdentityErrors([DuplicateUserName(request.email)]))
    ensures valid && verdict.Succeeded? && FindByName(s, request.email).Some? && FindByName(s, request.email).value.id == newId ==>
      r.response == Response(InternalServerError, ServerError)
    ensures r.response.status == InternalServerError <==>
      && valid && verdict.Succeeded? && FindById(s, newId).Some?
      && (FindByName(s, request.email).None? || FindByName(s, request.email).value.id == newId)
  {
    if !valid then Outcome(Response(BadRequest, ModelStateErrors), s)
    else
      match Create(s, NewUser(newId, request.email), request.password, verdict)
      case Faulted => Outcome(Response(InternalServerError, ServerError), s)
      case Wrote(Succeeded, s') => Outcome(Response(Ok, Text(RegisteredMessage)), s')
      case Wrote(Failed(errors), s') => Outcome(Response(BadRequest, IdentityErrors(errors)), s')
  }

  /**
   * POST login. `verdict` is the store's password sign-in verdict for a
   * known user name; `settings` and `now` feed token issuance.
   */
  function Login(s: Store, request: LoginUserDTO, valid: bool, verdict: SignInResult, settings: AppSettings, now: int): (r: Outcome)
    ensures r.store == s
    ensures !valid ==> r.response == Response(BadRequest, ModelStateErrors)
    ensures var signIn := PasswordSignIn(s, request.email, verdict);
      && (r.response.status == Ok <==>
            valid && signIn == SignInSucceeded && FindByEmail(s, request.email).Some? && settings.expiracaoHoras > 0)
      && (r.response.status == InternalServerError <==>
            valid && signIn == SignInSucceeded && (FindByEmail(s, request.email).None? || settings.expiracaoHoras <= 0))
      && (r.response.status == NotFound <==> valid && signIn != SignInSucceeded && signIn != LockedOut)
      && (valid && signIn == LockedOut ==> r.response == Response(BadRequest, LoginEcho(request)))
    ensures r.response.status == NotFound ==> r.response.body == Text(InvalidLoginMessage)
    ensures r.response.status == Ok ==>
      && r.response.body.TokenIssued?
      && r.response.body.response.userToken.id == FindByEmail(s, request.email).value.id
      && r.response.body.response.userToken.email == request.email
  {
    if !valid then Outcome(Response(BadRequest, ModelStateErrors), s)
    else
      var signIn := PasswordSignIn(s, request.email, verdict);
      if signIn == SignInSucceeded then
        match GerarJwt(s, request.email, settings, now)
        case Some(token) => Outcome(Response(Ok, TokenIssued(token)), s)
        case None => Outcome(Response(InternalServerError, ServerError), s)
      else if signIn == LockedOut then Outcome(Response(BadRequest, LoginEcho(request)), s)
      else Outcome(Response(NotFound, Text(InvalidLoginMessage)), s)
  }

  /**
   * POST forgotPassword. `code` is the reset code the store generates for
   * the user.
   */
  function ForgotPassword(s: Store, request: ForgotPasswordDTO, valid: bool, code: string): (r: Outcome)
    ensures r.store == s
    ensures !valid ==> r.response == Response(BadRequest, ModelStateErrors)
    ensures r.response.status == NotFound <==> valid && FindByEmail(s, request.email).None?
    ensures r.response.status == NotFound ==>
      r.response.body.Text? && Contains(r.response.body.text, request.email)
    ensures r.response.status == Ok <==> valid && FindByEmail(s, request.email).Some?
    ensures r.response.status == Ok ==>
      var user := FindByEmail(s, request.email).value;
      r.response.body == ResetTicket(ResetPasswordDTO(code, user.email, user.id))
  {
    if !valid then Outcome(Response(BadRequest, ModelStateErrors), s)
    else
      match FindByEmail(s, request.email)
      case None =>
        ContainsMiddle("Usuário '", request.email, "' não encontrado.");
        Outcome(Response(NotFound, Text(UserNotFoundMessage(request.email))), s)
      case Some(user) =>
        Outcome(Response(Ok, ResetTicket(ResetPasswordDTO(code, user.email, user.id))), s)
  }

  /**
   * GET resetPassword. The query parameters may be absent. The code is only
   * checked for presence; nothing is changed.
   */
  function ResetPassword(s: Store, userId: Option<string>, code: Option<string>): (r: Outcome)
    ensures r.store == s
    ensures userId.None? || code.None? ==> r.response == Response(BadRequest, Text(ResetRefusedMessage))
    ensures r.response.status == NotFound <==>
      userId.Some? && code.Some? && FindById(s, userId.value).None?
    ensures r.response.status == NotFound ==>
      r.response.body.Text? && Contains(r.response.body.text, userId.value)
    ensures r.response.status == Ok <==>
      userId.Some? && code.Some? && FindById(s, userId.value).Some?
    ensures r.response.status == Ok ==> r.response.body == Text(PasswordChangedMessage)
  {
    if userId.None? || code.None? then Outcome(Response(BadRequest, Text(ResetRefusedMessage)), s)
    else
      match FindById(s, userId.value)
      case None =>
        ContainsMiddle("Usuário ID '", userId.value, "' não encontrado.");
        Outcome(Response(NotFound, Text(UserIdNotFoundMessage(userId.value))), s)
      case Some(_) => Outcome(Response(Ok, Text(PasswordChangedMessage)), s)
  }

  /**
   * POST resetPasswordConfirm. `verdict` is the store's judgement of the code
   * and the new password. The body is the result's text followed by the
   * success message.
   */
  function ResetPasswordConfirm(s: Store, request: ResetPasswordConfirmDTO, valid: bool, verdict: IdentityResult): (r: Outcome)
    ensures !valid ==> r == Outcome(Response(BadRequest, ModelStateErrors), s)
    ensures r.response.status == NotFound <==> valid && FindByEmail(s, request.email).None?
    ensures r.response.status == NotFound ==>
      r.store == s && r.response.body.Text? && Contains(r.response.body.text, request.email)
    ensures valid && FindByEmail(s, request.email).Some? ==>
      var user := FindByEmail(s, request.email).value;
      && r.response == Response(Ok, Text(ResultText(verdict) + " " + PasswordChangedMessage))
      && r.store == ResetStoredPassword(s, user, request.password, verdict).1
  {
    if !valid then Outcome(Response(BadRequest, ModelStateErrors), s)
    else
      match FindByEmail(s, request.email)
      case None =>
        ContainsMiddle("Usuário ", request.email, " não encontrado.");
        Outcome(Response(NotFound, Text(ConfirmNotFoundMessage(request.email))), s)
      case Some(user) =>
        var (result, s') := ResetStoredPassword(s, user, request.password, verdict);
        Outcome(Response(Ok, Text(ResultText(result) + " " + PasswordChangedMessage)), s')
  }
}

=== FILE: auth_properties.dfy ===
/**
 * Properties relating several requests or several store verdicts: what a
 * client can and cannot learn, which requests change the store, and the
 * register-then-login round trip.
 */
module AuthProperties {
  import opened Wrappers
  import opened Identity
  import opened Token
  import opened Auth

  /** A failed login for an e-mail no user has is answered exactly like a
      wrong password for one that exists. */
  lemma LoginHidesUnknownEmail(
    unknown: Store, known: Store, request: LoginUserDTO, verdict: SignInResult, settings: AppSettings, now: int)
    requires FindByName(unknown, request.email).None?
    requires FindByName(known, request.email).Some?
    ensures Login(unknown, request, true, verdict, settings, now).response
         == Login(known, request, true, SignInFailed, settings, now).response
         == Response(NotFound, Text(InvalidLoginMessage))
  {
  }

  /** Invalid input is rejected before any sign-in attempt: the store's verdict
      plays no part. */
  lemma LoginInvalidMakesNoAttempt(
    s: Store, request: LoginUserDTO, v1: SignInResult, v2: SignInResult, settings: AppSettings, now: int)
    ensures Login(s, request, false, v1, settings, now) == Login(s, request, false, v2, settings, now)
  {
  }

  /** A successful login answers with a token whose subject lists the e-mail
      the client signed in with, and the response echoes that same list. */
  lemma LoginTokenCarriesIdentity(
    s: Store, request: LoginUserDTO, verdict: SignInResult, settings: AppSettings, now: int)
    requires Login(s, request, true, verdict, settings, now).response.status == Ok
    ensures var body := Login(s, request, true, verdict, settings, now).response.body.response;
      && Claim(EmailClaim, request.email) in body.accessToken.descriptor.subject
      && FromDtos(body.userToken.claims) == body.accessToken.descriptor.subject
  {
    var user := FindByEmail(s, request.email).value;
    var stored := GetClaims(s, user);
    var subject := BuildClaims(stored, user, GetRoles(s, user));
    assert subject[|stored| + 1] == Claim(EmailClaim, request.email);
  }

  /** With a token lifetime of zero or fewer hours, a login whose sign-in
      succeeds ends in an unhandled exception, whatever the user. */
  lemma LoginFailsWithoutLifetime(
    s: Store, request: LoginUserDTO, settings: AppSettings, now: int)
    requires FindByName(s, request.email).Some?
    requires settings.expiracaoHoras <= 0
    ensures Login(s, request, true, SignInSucceeded, settings, now).response
         == Response(InternalServerError, ServerError)
  {
  }

  /** The GET reset endpoint answers the same for every code it is given: the
      code is never checked, and nothing changes. */
  lemma ResetPasswordIgnoresCode(s: Store, userId: string, c1: string, c2: string)
    ensures ResetPassword(s, Some(userId), Some(c1)) == ResetPassword(s, Some(userId), Some(c2))
  {
  }

  /** For a known e-mail the confirm endpoint answers 200 whether or not the
      store accepted the code; only the stored password tells the two apart. */
  lemma ConfirmAnswersOkWhateverTheStoreSays(
    s: Store, request: ResetPasswordConfirmDTO, verdict: IdentityResult)
    requires Valid(s)
    requires FindByEmail(s, request.email).Some?
    ensures var r := ResetPasswordConfirm(s, request, true, verdict);
      var user := FindByEmail(s, request.email).value;
      && r.response.status == Ok
      && (verdict.Succeeded? ==> FindById(r.store, user.id).Some?
                                 && FindById(r.store, user.id).value.passwordHash == Hashed(request.password))
      && (verdict.Failed? ==> r.store == s)
  {
    if verdict.Succeeded? {
      ResetUserFound(s, FindByEmail(s, request.email).value, request.password);
    }
  }

  lemma CadastrarKeepsValid(s: Store, request: RegisterUserDTO, valid: bool, newId: string, verdict: IdentityResult)
    requires Valid(s)
    ensures Valid(Cadastrar(s, request, valid, newId, verdict).store)
  {
    if valid && Create(s, NewUser(newId, request.email), request.password, verdict).Wrote? {
      CreateKeepsValid(s, NewUser(newId, request.email), request.password, verdict);
    }
  }

  lemma ResetPasswordConfirmKeepsValid(s: Store, request: ResetPasswordConfirmDTO, valid: bool, verdict: IdentityResult)
    requires Valid(s)
    ensures Valid(ResetPasswordConfirm(s, request, valid, verdict).store)
  {
    if valid && FindByEmail(s, request.email).Some? {
      ResetPasswordKeepsValid(s, FindByEmail(s, request.email).value, request.password, verdict);
    }
  }

  /**
   * Registering an e-mail and then signing in with it: registration succeeds,
   * and the token issued afterwards names the new user, with exactly the
   * subject, e-mail and unique-name claims (a new user has no claims or roles).
   */
  lemma RegisterThenLogin(
    s: Store, email: string, password: string, newId: string, settings: AppSettings, now: int)
    requires Valid(s)
    requires FindByName(s, email).None? && FindByEmail(s, email).None? && FindById(s, newId).None?
    requires settings.expiracaoHoras > 0
    ensures var registered := Cadastrar(s, RegisterUserDTO(email, password), true, newId, Succeeded);
      var login := Login(registered.store, LoginUserDTO(email, password), true, SignInSucceeded, settings, now);
      && registered.response == Response(Ok, Text(RegisteredMessage))
      && login.response.status == Ok
      && login.response.body.response.userToken.id == newId
      && login.response.body.response.accessToken.descriptor.subject
         == [Claim(SubClaim, newId), Claim(EmailClaim, email), Claim(UniqueNameClaim, email)]
  {
    var user := IdentityUser(newId, email, email, true, Hashed(password));
    var s' := Cadastrar(s, RegisterUserDTO(email, password), true, newId, Succeeded).store;
    assert s'.users == s.users + [user];
    FindAppended(s.users, ByUserName, user);
    FindAppended(s.users, ByEmail, user);
    assert FindByEmail(s', email) == Some(user);
    assert newId !in Ids(s);
    assert GetClaims(s', user) == [];
    assert GetRoles(s', user) == [];
  }
}

=== FILE: findings.dfy ===
/**
 * Two places where the controller's behaviour departs from what its own
 * messages and the token it issues say. Each has a concrete input showing the
 * behaviour as written, and a corrected definition with the intended property.
 */
module Findings {
  import opened Wrappers
  import opened Identity
  import opened Token
  import opened Auth

  // ---------------------------------------------------------------------------
  // Reset confirmation reports success when the store rejected the code

  /** A store with one registered user. */
  function OneUser(): Store
  {
    Store([IdentityUser("1", "a@x.com", "a@x.com", true, Hashed("Secret123!"))], map[], map[])
  }

  /** As written: a wrong code is refused by the store, the password stays
      the same, yet the client gets 200 and the words "password changed"
      after the refusal's error code. */
  lemma ConfirmReportsSuccessOnRejectedCode()
    ensures var r := ResetPasswordConfirm(
              OneUser(), ResetPasswordConfirmDTO("a@x.com", "wrong-code", "NewSecret1!"), true,
              Failed([IdentityError("InvalidToken", "Invalid token.")]));
      && r.response == Response(Ok, Text("Failed : " + "InvalidToken" + " " + PasswordChangedMessage))
      && r.store == OneUser()
  {
    var verdict := Failed([IdentityError("InvalidToken", "Invalid token.")]);
    assert FindByEmail(OneUser(), "a@x.com").Some?;
    assert JoinCodes(verdict.errors) == "InvalidToken";
  }

  /** The evidently intended confirmation: a rejected reset is a validation
      failure listing the store's errors, as registration does. */
  function ResetPasswordConfirmIntended(s: Store, request: ResetPasswordConfirmDTO, valid: bool, verdict: IdentityResult): (r: Outcome)
    ensures !valid ==> r == Outcome(Response(BadRequest, ModelStateErrors), s)
    ensures r.response.status == NotFound <==> valid && FindByEmail(s, request.email).None?
    ensures r.response.status != Ok ==> r.store == s
  {
    if !valid then Outcome(Response(BadRequest, ModelStateErrors), s)
    else
      match FindByEmail(s, request.email)
      case None =>
        ContainsMiddle("Usuário ", request.email, " não encontrado.");
        Outcome(Response(NotFound, Text(ConfirmNotFoundMessage(request.email))), s)
      case Some(user) =>
        match ResetStoredPassword(s, user, request.password, verdict)
        case (Succeeded, s') => Outcome(Response(Ok, Text(PasswordChangedMessage)), s')
        case (Failed(errors), s') => Outcome(Response(BadRequest, IdentityErrors(errors)), s')
  }

  /** With the correction, the client is told the password changed exactly
      when the store changed it, and a refusal carries the store's reasons. */
  lemma IntendedConfirmReflectsStore(s: Store, request: ResetPasswordConfirmDTO, verdict: IdentityResult)
    requires Valid(s)
    requires FindByEmail(s, request.email).Some?
    ensures var r := ResetPasswordConfirmIntended(s, request, true, verdict);
      var user := FindByEmail(s, request.email).value;
      && (r.response.status == Ok <==> verdict.Succeeded?)
      && (r.response.status == Ok ==> r.response.body == Text(PasswordChangedMessage)
                                      && FindById(r.store, user.id).Some?
                                      && FindById(r.store, user.id).value.passwordHash == Hashed(request.password))
      && (verdict.Failed? ==> r.response == Response(BadRequest, IdentityErrors(verdict.errors)) && r.store == s)
  {
    if verdict.Succeeded? {
      ResetUserFound(s, FindByEmail(s, request.email).value, request.password);
    }
  }

  // ---------------------------------------------------------------------------
  // The reported token lifetime ignores the configured lifetime

  /** As written: with a one-hour lifetime configured, the token expires after
      3600 seconds but the client is told 7200. */
  lemma ReportedExpiryOutlivesOneHourToken()
    ensures var r := GerarJwt(OneUser(), "a@x.com", AppSettings("a-signing-secret-of-32-characters!", 1, "CentralErros", "https://localhost"), 0);
      && r.Some?
      && r.value.accessToken.descriptor.expires == 3600
      && r.value.expiresIn == 7200
  {
  }

  /** The evidently intended issuance: the reported lifetime is the configured one. */
  function GerarJwtIntended(s: Store, email: string, settings: AppSettings, now: int): (r: Option<LoginResponseDTO>)
    ensures r.None? <==> FindByEmail(s, email).None? || settings.expiracaoHoras <= 0
    ensures r.Some? ==> r.value.expiresIn == r.value.accessToken.descriptor.expires - now
    ensures r.Some? ==> r.value.expiresIn == settings.expiracaoHoras * SecondsPerHour
  {
    match GerarJwt(s, email, settings, now)
    case None => None
    case Some(response) => Some(response.(expiresIn := settings.expiracaoHoras * SecondsPerHour))
  }

  /** Apart from the reported lifetime, the corrected issuance issues the same token. */
  lemma IntendedTokenOnlyChangesExpiresIn(s: Store, email: string, settings: AppSettings, now: int)
    requires FindByEmail(s, email).Some?
    requires settings.expiracaoHoras > 0
    ensures GerarJwtIntended(s, email, settings, now).value.accessToken
         == GerarJwt(s, email, settings, now).value.accessToken
    ensures GerarJwtIntended(s, email, settings, now).value.userToken
         == GerarJwt(s, email, settings, now).value.userToken
  {
  }
}

=== FILE: identity.dfy ===
/**
 * The credential store the authentication controller talks to, reduced to the
 * data it reads and the outcomes it branches on. The store's own decisions
 * (password policy, password verification, lockout, reset-token validation)
 * are not computed here: they arrive as verdicts supplied by the caller.
 */
module Identity {
  import opened Wrappers

  /** A (type, value) attribute of a user. */
  datatype Claim = Claim(claimType: string, value: string)

  /** The stored password: absent, or the store's hash of a plain password.
      The hash is kept abstract; `Hashed` is injective, as a hash is assumed to be. */
  datatype PasswordHash = NoPassword | Hashed(password: string)

  /** One row of the users table. */
  datatype IdentityUser = IdentityUser(
    id: string,
    userName: string,
    email: string,
    emailConfirmed: bool,
    passwordHash: PasswordHash)

  datatype IdentityError = IdentityError(code: string, description: string)

  /** Result of a store write such as create or reset-password. */
  datatype IdentityResult = Succeeded | Failed(errors: seq<IdentityError>)

  /** Result of a password sign-in attempt. */
  datatype SignInResult = SignInSucceeded | LockedOut | NotAllowed | RequiresTwoFactor | SignInFailed

  /** The store: the users table, and the claims and roles tables keyed by user id. */
  datatype Store = Store(
    users: seq<IdentityUser>,
    claims: map<string, seq<Claim>>,
    roles: map<string, seq<string>>)

  /** The columns a user can be looked up by. */
  datatype Column = ById | ByEmail | ByUserName

  function KeyOf(u: IdentityUser, column: Column): string
  {
    match column
    case ById => u.id
    case ByEmail => u.email
    case ByUserName => u.userName
  }

  /** Looks a user up by one column, scanning the table in order; the first row
      whose column holds `key` is returned. */
  function Find(users: seq<IdentityUser>, column: Column, key: string): (r: Option<IdentityUser>)
    ensures r.Some? ==> r.value in users && KeyOf(r.value, column) == key
    ensures r.None? <==> forall u | u in users :: KeyOf(u, column) != key
    decreases |users|
  {
    if |users| == 0 then None
    else if KeyOf(users[0], column) == key then Some(users[0])
    else Find(users[1..], column, key)
  }

  function FindByEmail(s: Store, email: string): Option<IdentityUser>
  {
    Find(s.users, ByEmail, email)
  }

  function FindById(s: Store, id: string): Option<IdentityUser>
  {
    Find(s.users, ById, id)
  }

  function FindByName(s: Store, userName: string): Option<IdentityUser>
  {
    Find(s.users, ByUserName, userName)
  }

  /** The user's own claims, in the order the store returns them. */
  function GetClaims(s: Store, u: IdentityUser): seq<Claim>
  {
    if u.id in s.claims then s.claims[u.id] else []
  }

  /** The user's role names, in the order the store returns them. */
  function GetRoles(s: Store, u: IdentityUser): seq<string>
  {
    if u.id in s.roles then s.roles[u.id] else []
  }

  /** No two rows share a value in `column`. */
  ghost predicate UniqueColumn(users: seq<IdentityUser>, column: Column)
  {
    forall i, j | 0 <= i < |users| && 0 <= j < |users| && KeyOf(users[i], column) == KeyOf(users[j], column) :: i == j
  }

  /** The keys of the users table. */
  ghost function Ids(s: Store): set<string>
  {
    set u | u in s.users :: u.id
  }

  /** The store's integrity constraints: primary key on id, unique user name,
      and claim and role rows only for existing users. */
  ghost predicate Valid(s: Store)
  {
    && UniqueColumn(s.users, ById)
    && UniqueColumn(s.users, ByUserName)
    && s.claims.Keys <= Ids(s)
    && s.roles.Keys <= Ids(s)
  }

  /** On a unique column, a lookup by a row's key finds exactly that row. */
  lemma FindUnique(users: seq<IdentityUser>, column: Column, u: IdentityUser)
    requires UniqueColumn(users, column)
    requires u in users
    ensures Find(users, column, KeyOf(u, column)) == Some(u)
  {
    var r := Find(users, column, KeyOf(u, column));
    var i :| 0 <= i < |users| && users[i] == u;
    var j :| 0 <= j < |users| && users[j] == r.value;
    assert KeyOf(users[i], column) == KeyOf(users[j], column);
  }

  /** A row appended to the table is found by a key no earlier row holds. */
  lemma {:induction false} FindAppended(users: seq<IdentityUser>, column: Column, u: IdentityUser)
    requires Find(users, column, KeyOf(u, column)).None?
    ensures Find(users + [u], column, KeyOf(u, column)) == Some(u)
    decreases |users|
  {
    if |users| == 0 {
      assert users + [u] == [u];
    } else {
      assert (users + [u])[1..] == users[1..] + [u];
      FindAppended(users[1..], column, u);
    }
  }

  // ---------------------------------------------------------------------------
  // Store operations, as the controller sees them

  /** The error the store reports when the user name is already taken. */
  function DuplicateUserName(userName: string): IdentityError
  {
    IdentityError("DuplicateUserName", "Username '" + userName + "' is already taken.")
  }

  /** Outcome of a store write: a result and the new store, or an exception
      escaping from the database (a primary-key violation). */
  datatype StoreWrite = Wrote(result: IdentityResult, store: Store) | Faulted

  /**
   * Creating a user with a password. `verdict` is the store's validation
   * verdict: its password policy and its user-name rules (the characters a
   * user name may contain). It is checked first. Then the user name must not
   * belong to another user: a row holding the name under the same id is not
   * reported as a duplicate. Then the row is inserted, and a colliding id is
   * a database fault.
   */
  function Create(s: Store, user: IdentityUser, password: string, verdict: IdentityResult): (w: StoreWrite)
    ensures w.Wrote? && w.result.Succeeded? <==>
              verdict.Succeeded? && FindByName(s, user.userName).None? && FindById(s, user.id).None?
    ensures w.Wrote? && w.result.Succeeded? ==>
              w.store == s.(users := s.users + [user.(passwordHash := Hashed(password))])
    ensures w.Wrote? && w.result.Failed? ==> w.store == s
    ensures w.Faulted? ==> FindById(s, user.id).Some?
    ensures verdict.Succeeded? ==>
              (w == Wrote(Failed([DuplicateUserName(user.userName)]), s) <==>
                 FindByName(s, user.userName).Some? && FindByName(s, user.userName).value.id != user.id)
  {
    if verdict.Failed? then Wrote(verdict, s)
    else if FindByName(s, user.userName).Some? && FindByName(s, user.userName).value.id != user.id then Wrote(Failed([DuplicateUserName(user.userName)]), s)
    else if FindById(s, user.id).Some? then Faulted
    else Wrote(Succeeded, s.(users := s.users + [user.(passwordHash := Hashed(password))]))
  }

  /** Replaces the password of every row whose id is `id`. */
  function SetPassword(users: seq<IdentityUser>, id: string, password: string): (r: seq<IdentityUser>)
    ensures |r| == |users|
    ensures forall i | 0 <= i < |r| ::
              r[i] == if users[i].id == id then users[i].(passwordHash := Hashed(password)) else users[i]
    decreases |users|
  {
    if |users| == 0 then []
    else
      var head := if users[0].id == id then users[0].(passwordHash := Hashed(password)) else users[0];
      [head] + SetPassword(users[1..], id, password)
  }

  /** Resetting a user's password with a reset code. `verdict` is the store's
      judgement of the code and the new password; only on success does the
      stored password change. */
  function ResetStoredPassword(s: Store, user: IdentityUser, newPassword: string, verdict: IdentityResult): (w: (IdentityResult, Store))
    ensures w.0 == verdict
    ensures verdict.Failed? ==> w.1 == s
    ensures verdict.Succeeded? ==>
      && w.1.claims == s.claims
      && w.1.roles == s.roles
      && |w.1.users| == |s.users|
      && forall i | 0 <= i < |s.users| ::
           w.1.users[i] == if s.users[i].id == user.id then s.users[i].(passwordHash := Hashed(newPassword)) else s.users[i]
  {
    if verdict.Succeeded? then (Succeeded, s.(users := SetPassword(s.users, user.id, newPassword)))
    else (verdict, s)
  }

  /** A password sign-in by user name: an unknown user name always fails;
      otherwise the store's verdict (password check, lockout, confirmation
      policy) stands. */
  function PasswordSignIn(s: Store, userName: string, verdict: SignInResult): (r: SignInResult)
    ensures FindByName(s, userName).None? ==> r == SignInFailed
    ensures r == SignInSucceeded ==> FindByName(s, userName).Some?
  {
    if FindByName(s, userName).None? then SignInFailed else verdict
  }

  /** The error codes joined with commas, as `string.Join(",", codes)`. */
  function JoinCodes(errors: seq<IdentityError>): (r: string)
    ensures |errors| == 0 ==> r == ""
    ensures |errors| > 0 ==> |errors[0].code| <= |r| && r[..|errors[0].code|] == errors[0].code
    decreases |errors|
  {
    if |errors| == 0 then ""
    else if |errors| == 1 then errors[0].code
    else errors[0].code + "," + JoinCodes(errors[1..])
  }

  /** The text form of a result, as the store's result prints itself:
      "Succeeded", or "Failed : " followed by the joined error codes. */
  function ResultText(r: IdentityResult): (t: string)
    ensures r.Succeeded? <==> t == "Succeeded"
    ensures r.Failed? ==> t == "Failed : " + JoinCodes(r.errors)
  {
    match r
    case Succeeded => "Succeeded"
    case Failed(errors) =>
      var t := "Failed : " + JoinCodes(errors);
      assert t[0] == 'F';
      t
  }

  /** The pieces of a text between commas; a text without commas is one piece. */
  function SplitCommas(s: string): (r: seq<string>)
    ensures |r| >= 1
    decreases |s|
  {
    if |s| == 0 then [""]
    else
      var rest := SplitCommas(s[1..]);
      if s[0] == ',' then [""] + rest
      else [[s[0]] + rest[0]] + rest[1..]
  }

  lemma {:induction false} SplitCommasOfPiece(c: string, rest: string)
    requires forall k | 0 <= k < |c| :: c[k] != ','
    ensures SplitCommas(c + rest) == [c + SplitCommas(rest)[0]] + SplitCommas(rest)[1..]
    decreases |c|
  {
    if |c| > 0 {
      var t := SplitCommas(rest);
      assert (c + rest)[1..] == c[1..] + rest;
      assert (c + rest)[0] == c[0];
      SplitCommasOfPiece(c[1..], rest);
      var r := SplitCommas(c[1..] + rest);
      assert r[0] == c[1..] + t[0];
      assert r[1..] == t[1..];
      assert [c[0]] + (c[1..] + t[0]) == c + t[0];
    } else {
      var t := SplitCommas(rest);
      assert c + rest == rest;
      assert c + t[0] == t[0];
      assert t == [t[0]] + t[1..];
    }
  }

  function Codes(errors: seq<IdentityError>): (r: seq<string>)
    ensures |r| == |errors|
    ensures forall i | 0 <= i < |errors| :: r[i] == errors[i].code
  {
    seq(|errors|, i requires 0 <= i < |errors| => errors[i].code)
  }

  /** When no code contains a comma, splitting the joined text at its commas
      gives back the codes in order. */
  lemma {:induction false} JoinCodesRoundTrip(errors: seq<IdentityError>)
    requires |errors| > 0
    requires forall i, k | 0 <= i < |errors| && 0 <= k < |errors[i].code| :: errors[i].code[k] != ','
    ensures SplitCommas(JoinCodes(errors)) == Codes(errors)
    decreases |errors|
  {
    var c := errors[0].code;
    if |errors| == 1 {
      SplitCommasOfPiece(c, "");
      assert c + "" == c;
    } else {
      var tail := JoinCodes(errors[1..]);
      assert forall i, k | 0 <= i < |errors[1..]| && 0 <= k < |errors[1..][i].code| :: errors[1..][i].code[k] != ',' by {
        forall i, k | 0 <= i < |errors[1..]| && 0 <= k < |errors[1..][i].code|
          ensures errors[1..][i].code[k] != ','
        {
          assert errors[1..][i] == errors[i + 1];
        }
      }
      JoinCodesRoundTrip(errors[1..]);
      assert JoinCodes(errors) == c + ("," + tail);
      SplitCommasOfPiece(c, "," + tail);
      assert ("," + tail)[1..] == tail;
      var u := SplitCommas("," + tail);
      assert u == [""] + SplitCommas(tail);
      assert u[0] == "" && u[1..] == Codes(errors[1..]);
      assert c + "" == c;
      assert Codes(errors) == [c] + Codes(errors[1..]);
    }
  }

  // ---------------------------------------------------------------------------
  // What the store operations preserve

  lemma SetPasswordKeepsKeys(users: seq<IdentityUser>, id: string, password: string)
    ensures forall i, column | 0 <= i < |users| ::
              KeyOf(SetPassword(users, id, password)[i], column) == KeyOf(users[i], column)
  {
  }

  /** After a successful reset, looking the user up by id finds the user with
      the new password. */
  lemma ResetUserFound(s: Store, user: IdentityUser, newPassword: string)
    requires Valid(s)
    requires user in s.users
    ensures FindById(ResetStoredPassword(s, user, newPassword, Succeeded).1, user.id)
         == Some(user.(passwordHash := Hashed(newPassword)))
  {
    var t := ResetStoredPassword(s, user, newPassword, Succeeded).1;
    var i :| 0 <= i < |s.users| && s.users[i] == user;
    ResetPasswordKeepsValid(s, user, newPassword, Succeeded);
    assert KeyOf(t.users[i], ById) == user.id;
    FindUnique(t.users, ById, t.users[i]);
  }

  /** Every store write keeps the store's integrity constraints. */
  lemma CreateKeepsValid(s: Store, user: IdentityUser, password: string, verdict: IdentityResult)
    requires Valid(s)
    requires Create(s, user, password, verdict).Wrote?
    ensures Valid(Create(s, user, password, verdict).store)
  {
    var w := Create(s, user, password, verdict);
    if w.result.Succeeded? {
      var u := user.(passwordHash := Hashed(password));
      var t := s.users + [u];
      forall column | column == ById || column == ByUserName
        ensures UniqueColumn(t, column)
      {
        forall i, j | 0 <= i < |t| && 0 <= j < |t| && KeyOf(t[i], column) == KeyOf(t[j], column)
          ensures i == j
        {
        }
      }
      assert Ids(s) <= Ids(w.store);
    }
  }

  lemma ResetPasswordKeepsValid(s: Store, user: IdentityUser, newPassword: string, verdict: IdentityResult)
    requires Valid(s)
    ensures Valid(ResetStoredPassword(s, user, newPassword, verdict).1)
  {
    var t := ResetStoredPassword(s, user, newPassword, verdict).1;
    SetPasswordKeepsKeys(s.users, user.id, newPassword);
    assert |t.users| == |s.users|;
    forall x | x in Ids(s) ensures x in Ids(t) {
      var i :| 0 <= i < |s.users| && s.users[i].id == x;
      assert KeyOf(t.users[i], ById) == x;
    }
  }
}

=== FILE: token.dfy ===
/**
 * Access-token issuance for a signed-in user: the claim list, the token
 * descriptor handed to the JWT handler, and the login response shape.
 * Encoding and HMAC-SHA256 signing are not computed: the encoded token is an
 * opaque value determined by the descriptor.
 */
module Token {
  import opened Wrappers
  import opened Identity

  /** Registered claim names from section 4.1.2 of RFC 7519 (`sub`) and the
      names the JWT handler uses for e-mail and unique name. */
  const SubClaim := "sub"
  const EmailClaim := "email"
  const UniqueNameClaim := "unique_name"
  const RoleClaim := "role"

  /** The signing algorithm identifier for HMAC-SHA256. */
  const HmacSha256Signature := "http://www.w3.org/2001/04/xmldsig-more#hmac-sha256"

  const SecondsPerHour := 3600
  /** The expiry reported to the client: two hours, in seconds. */
  const ReportedExpiresIn := 2 * SecondsPerHour

  type byte = b: int | 0 <= b < 256

  /** Token configuration: signing secret, lifetime in hours, issuer, audience. */
  datatype AppSettings = AppSettings(secret: string, expiracaoHoras: int, emissor: string, validoEm: string)

  /** What is handed to the JWT handler. Times are in seconds. */
  datatype TokenDescriptor = TokenDescriptor(
    issuer: string,
    audience: string,
    subject: seq<Claim>,
    expires: int,
    signingKey: seq<byte>,
    algorithm: string)

  /** The compact serialised token, an opaque function of its descriptor. */
  datatype EncodedToken = EncodedToken(descriptor: TokenDescriptor)

  datatype ClaimDTO = ClaimDTO(claimType: string, value: string)

  datatype UserTokenDTO = UserTokenDTO(id: string, email: string, claims: seq<ClaimDTO>)

  datatype LoginResponseDTO = LoginResponseDTO(accessToken: EncodedToken, expiresIn: int, userToken: UserTokenDTO)

  /** One `role` claim per role name, in order. */
  function RoleClaims(roles: seq<string>): (r: seq<Claim>)
    ensures |r| == |roles|
    ensures forall i | 0 <= i < |roles| :: r[i] == Claim(RoleClaim, roles[i])
    decreases |roles|
  {
    if |roles| == 0 then [] else [Claim(RoleClaim, roles[0])] + RoleClaims(roles[1..])
  }

  /** The subject, e-mail and unique-name claims, in that order. */
  function IdentityClaims(user: IdentityUser): seq<Claim>
  {
    [Claim(SubClaim, user.id), Claim(EmailClaim, user.email), Claim(UniqueNameClaim, user.userName)]
  }

  /** The token's claim list: the user's stored claims, then subject, e-mail and
      unique name, then one claim per role. */
  function BuildClaims(stored: seq<Claim>, user: IdentityUser, roles: seq<string>): (r: seq<Claim>)
    ensures |r| == |stored| + 3 + |roles|
    ensures r[..|stored|] == stored
    ensures r[|stored|] == Claim(SubClaim, user.id)
    ensures r[|stored| + 1] == Claim(EmailClaim, user.email)
    ensures r[|stored| + 2] == Claim(UniqueNameClaim, user.userName)
    ensures forall i | 0 <= i < |roles| :: r[|stored| + 3 + i] == Claim(RoleClaim, roles[i])
  {
    stored + IdentityClaims(user) + RoleClaims(roles)
  }

  /** The claim list built the way the controller builds it: start from the
      stored claims and append one claim at a time. */
  method AppendClaims(stored: seq<Claim>, user: IdentityUser, roles: seq<string>) returns (claims: seq<Claim>)
    ensures claims == BuildClaims(stored, user, roles)
  {
    claims := stored;
    claims := claims + [Claim(SubClaim, user.id)];
    claims := claims + [Claim(EmailClaim, user.email)];
    claims := claims + [Claim(UniqueNameClaim, user.userName)];
    ghost var prefix := claims;
    var k := 0;
    while k < |roles|
      invariant 0 <= k <= |roles|
      invariant |claims| == |prefix| + k
      invariant claims[..|prefix|] == prefix
      invariant forall i | 0 <= i < k :: claims[|prefix| + i] == Claim(RoleClaim, roles[i])
    {
      claims := claims + [Claim(RoleClaim, roles[k])];
      k := k + 1;
    }
  }

  /** The values of the claims of one type, in order. */
  function ValuesOfType(claims: seq<Claim>, claimType: string): seq<string>
    decreases |claims|
  {
    if |claims| == 0 then []
    else if claims[0].claimType == claimType then [claims[0].value] + ValuesOfType(claims[1..], claimType)
    else ValuesOfType(claims[1..], claimType)
  }

  lemma {:induction false} ValuesOfTypeAppend(a: seq<Claim>, b: seq<Claim>, claimType: string)
    ensures ValuesOfType(a + b, claimType) == ValuesOfType(a, claimType) + ValuesOfType(b, claimType)
    decreases |a|
  {
    if |a| == 0 {
      assert a + b == b;
    } else {
      assert (a + b)[1..] == a[1..] + b;
      ValuesOfTypeAppend(a[1..], b, claimType);
    }
  }

  lemma {:induction false} RoleClaimValues(roles: seq<string>)
    ensures ValuesOfType(RoleClaims(roles), RoleClaim) == roles
    decreases |roles|
  {
    if |roles| > 0 {
      var r := RoleClaims(roles);
      assert r[1..] == RoleClaims(roles[1..]);
      RoleClaimValues(roles[1..]);
    }
  }

  /** The subject, e-mail and unique-name claims carry no role. */
  lemma IdentityClaimsHaveNoRole(user: IdentityUser)
    ensures ValuesOfType(IdentityClaims(user), RoleClaim) == []
  {
    var ids := IdentityClaims(user);
    assert ids[2..][1..] == [];
    assert ValuesOfType(ids[2..], RoleClaim) == [];
    assert ids[1..][1..] == ids[2..];
    assert ValuesOfType(ids[1..], RoleClaim) == [];
  }

  /** Reading the `role` claims back out of the token gives the stored role
      claims followed by exactly the user's roles, in order; the three
      synthesised identity claims contribute no role. */
  lemma TokenRoles(stored: seq<Claim>, user: IdentityUser, roles: seq<string>)
    ensures ValuesOfType(BuildClaims(stored, user, roles), RoleClaim) == ValuesOfType(stored, RoleClaim) + roles
  {
    var ids := IdentityClaims(user);
    ValuesOfTypeAppend(stored + ids, RoleClaims(roles), RoleClaim);
    ValuesOfTypeAppend(stored, ids, RoleClaim);
    IdentityClaimsHaveNoRole(user);
    RoleClaimValues(roles);
  }

  /** The claims as transfer objects for the response body. */
  function ToDtos(claims: seq<Claim>): (r: seq<ClaimDTO>)
    ensures |r| == |claims|
    ensures forall i | 0 <= i < |claims| :: r[i].claimType == claims[i].claimType && r[i].value == claims[i].value
  {
    seq(|claims|, i requires 0 <= i < |claims| => ClaimDTO(claims[i].claimType, claims[i].value))
  }

  function FromDtos(dtos: seq<ClaimDTO>): seq<Claim>
  {
    seq(|dtos|, i requires 0 <= i < |dtos| => Claim(dtos[i].claimType, dtos[i].value))
  }

  /** The response's claims carry the same (type, value) pairs, in the same order. */
  lemma DtosRoundTrip(claims: seq<Claim>)
    ensures FromDtos(ToDtos(claims)) == claims
  {
  }

  /** The bytes of a string in ASCII encoding: characters outside ASCII become '?'. */
  function AsciiBytes(s: string): (r: seq<byte>)
    ensures |r| == |s|
    ensures forall i | 0 <= i < |s| :: s[i] as int < 128 ==> r[i] == s[i] as int
    ensures forall i | 0 <= i < |s| :: s[i] as int >= 128 ==> r[i] == '?' as int
  {
    seq(|s|, i requires 0 <= i < |s| => if s[i] as int < 128 then s[i] as int else '?' as int)
  }

  /** An ASCII secret is encoded character for character. */
  lemma AsciiSecretRoundTrip(s: string)
    requires forall i | 0 <= i < |s| :: s[i] as int < 128
    ensures seq(|s|, i requires 0 <= i < |s| => AsciiBytes(s)[i] as char) == s
  {
    var b := AsciiBytes(s);
    forall i | 0 <= i < |s| ensures b[i] as char == s[i] {
      assert b[i] == s[i] as int;
    }
  }

  /** The JWT handler's check that a token expires after it becomes valid. */
  predicate ExpiresAfterNotBefore(expires: int, notBefore: int)
  {
    notBefore < expires
  }

  /**
   * Issues the token for the user whose e-mail is `email`. `now` is the
   * current time in seconds. `None` stands for an exception: no user has that
   * e-mail, or the expiry is not after the token's not-before time. The JWT
   * handler sets not-before to the clock read after the expiry was computed,
   * so a lifetime of zero or fewer hours is refused.
   */
  function GerarJwt(s: Store, email: string, settings: AppSettings, now: int): (r: Option<LoginResponseDTO>)
    ensures r.None? <==> FindByEmail(s, email).None? || settings.expiracaoHoras <= 0
    ensures r.Some? ==>
      var user := FindByEmail(s, email).value;
      var token := r.value.accessToken.descriptor;
      && user.email == email
      && r.value.userToken.id == user.id
      && r.value.userToken.email == user.email
      && FromDtos(r.value.userToken.claims) == token.subject
      && token.subject == BuildClaims(GetClaims(s, user), user, GetRoles(s, user))
      && token.issuer == settings.emissor
      && token.audience == settings.validoEm
      && token.expires == now + settings.expiracaoHoras * SecondsPerHour
      && token.signingKey == AsciiBytes(settings.secret)
      && token.algorithm == HmacSha256Signature
      && r.value.expiresIn == 7200
  {
    match FindByEmail(s, email)
    case None => None
    case Some(user) =>
      var expires := now + settings.expiracaoHoras * SecondsPerHour;
      if !ExpiresAfterNotBefore(expires, now) then None
      else
        var claims := BuildClaims(GetClaims(s, user), user, GetRoles(s, user));
        var descriptor := TokenDescriptor(
          settings.emissor,
          settings.validoEm,
          claims,
          expires,
          AsciiBytes(settings.secret),
          HmacSha256Signature);
        DtosRoundTrip(claims);
        Some(LoginResponseDTO(EncodedToken(descriptor), ReportedExpiresIn, UserTokenDTO(user.id, user.email, ToDtos(claims))))
  }

  /** The expiry reported to the client is the same whatever the configured
      lifetime, and it matches the token's real lifetime only when that is two
      hours. */
  lemma ReportedExpiryIgnoresConfiguration(s: Store, email: string, settings: AppSettings, now: int)
    requires GerarJwt(s, email, settings, now).Some?
    ensures var r := GerarJwt(s, email, settings, now).value;
      && r.expiresIn == ReportedExpiresIn
      && (r.expiresIn == r.accessToken.descriptor.expires - now <==> settings.expiracaoHoras == 2)
  {
  }
}

=== FILE: wrappers.dfy ===
/** Optional value, used for nullable lookups and query parameters. */
module Wrappers {

  datatype Option<+T> = None | Some(value: T)
}
